=== FILE: README.md ===
# LocalChat (ollama-pwa) core, modelled in Dafny

This project models the three pieces of logic in the LocalChat progressive web app that have real structure.

- **The streaming record decoder.** The chat reply arrives as text chunks. The chunks are appended to a carry-over buffer and split on `'\n'`. The last piece stays in the buffer. Each complete line is then classified and applied:
  - a blank line is skipped;
  - an unparseable line is dropped;
  - a record's `message.content` is appended to the assistant bubble and copied into the transcript;
  - a record's `error` is appended to the bubble as an `[error]` marker.

  (`decoder.dfy`, on top of the string helpers in `text.dfy`.)
- **The chat session.** This is the state `settings`, `history`, `isStreaming` plus the displayed bubble and the two storage records. Each thing that can happen is a transition (`session.dfy`, `transcript.dfy`):
  - `sendMessage` with its guard, its two appends, its request payload and its URL;
  - the response arriving;
  - each body chunk;
  - the end of the body;
  - a transport failure and the `finally` block;
  - `newChat`;
  - the save-settings handler;
  - `loadSettings`, `loadHistory`, `saveSettings` and `saveHistory`.

  `RunCycle` composes one whole `sendMessage` call. Model discovery contributes only its URL and the ordering of the names (`discovery.dfy`).
- **The offline cache worker.** Cache storage is an ordered list of named namespaces, each mapping URLs to responses. The worker has three events (`cache_worker.dfy`):
  - install precaches `ASSETS` into `CACHE`;
  - activate deletes every other namespace;
  - fetch passes cross-origin requests through. For same-origin requests it answers cache-first, then from the network while keeping a copy, then with the cached `./index.html`.

Everything is pure functions over immutable datatypes, and the program's external inputs are parameters:
- the outcome of `JSON.parse` on a line is a function `parse: string -> Parsed`;
- the server's behaviour for a whole cycle is a `Reply`;
- in the worker's install, the network is a function `Url -> Option<Response>` giving each asset fetch's outcome (`None` when `fetch` rejects);
- in the worker's fetch handler, the network is the single `Option<Response>` that `fetch(event.request)` settles to;
- whether storage accepts the `addAll` write and the detached `cache.put` is a boolean;
- `localStorage` is a record of two slots (`neon/settings`, `neon/history`). Each slot is absent, unparseable or holds a parsed value.

The model keeps these behaviours of the code, which a reader might not expect:
- the fetch handler's lookup is `caches.match`, which searches every namespace, not only the active one;
- there is no `done` flag, no end-of-stream handling of the leftover buffer (it is dropped) and no dropped-line counter;
- `newChat` clears the transcript without checking the `isStreaming` lock;
- an install whose `addAll` fails still leaves the opened (possibly new, empty) `CACHE` namespace behind, because `caches.open` runs first.

## Model

| member | source | states |
|---|---|---|
| Text.Trim | ollama-pwa/app.js:136-137 | Trimming yields the empty string exactly when the input is all JavaScript whitespace; a non-empty result neither starts nor ends with whitespace and is the infix between the leading and trailing whitespace runs |
| Text.Split | ollama-pwa/app.js:172 | `split('\n')` yields at least one piece, no piece contains a newline, and joining the pieces with newlines gives back the input |
| Text.SplitJoin | ollama-pwa/app.js:172-173 | Splitting a newline-join of newline-free pieces recovers exactly those pieces, so a string's pieces are unique |
| Text.JoinAppend | ollama-pwa/app.js:172 | Joining a concatenation of two non-empty piece lists puts exactly one newline between the two joins |
| Decoder.Feed | ollama-pwa/app.js:171-173 | After a chunk the new buffer holds no newline, no complete line holds one, and the lines each followed by a newline, then the buffer, spell the old buffer plus the chunk |
| Decoder.FeedUnique | ollama-pwa/app.js:171-173 | Any newline-free lines and buffer that spell buffer plus chunk are exactly what one feed produces |
| Decoder.FeedConcat | ollama-pwa/app.js:166-190 | Feeding c1 then c2 yields the lines of both calls in order and the same final buffer as feeding c1 + c2 at once |
| Decoder.ApplyLine | ollama-pwa/app.js:174-189 | One line lengthens the bubble by exactly its contribution (nothing for blank or unparseable lines), keeps the transcript a prefix of the bubble, and can change only the last message's content, never its role |
| Decoder.ApplyRecord | ollama-pwa/app.js:178-185 | A record's content is appended and the last message becomes the whole bubble; an error appends an `[error]` marker to the bubble only; content-less records leave the transcript alone; with an empty transcript the throw skips the error |
| Decoder.ShowMarker | ollama-pwa/app.js:183-185 | An error appends `\n[error] <error>` to the bubble, and nothing for a missing error; the transcript is untouched, so the last message stays a prefix of the bubble |
| Decoder.ShowContent | ollama-pwa/app.js:179-180 | Content lengthens the bubble by exactly that text. A non-empty transcript then ends with a message holding the whole bubble, with the last role and every earlier message kept |
| Decoder.ApplyLines | ollama-pwa/app.js:174-189 | The line loop keeps the transcript's length, every message but the last, and the last message's role |
| Decoder.SkippedLineChangesNothing | ollama-pwa/app.js:175-188 | A whitespace-only line, or one that does not parse, changes neither the bubble nor the transcript |
| Decoder.ApplyLinesAppend | ollama-pwa/app.js:174-189 | The loop over a + b is the loop over a followed by the loop over b, so lines after a skipped or error line are still processed |
| Decoder.ApplyLinesBubble | ollama-pwa/app.js:178-185 | The bubble grows by exactly the concatenation of the lines' contributions (content, then any error marker) in line order |
| Decoder.ApplyLinesNoSync | ollama-pwa/app.js:174-189 | Lines none of which is a record with content leave the transcript exactly as it was |
| Decoder.ApplyLinesLastSync | ollama-pwa/app.js:178-184 | After lines `a`, a content line `l` and lines without content, the last message is the starting bubble, then `a`'s contributions, then `l`'s content |
| Decoder.ApplyLinesKeepsPrefix | ollama-pwa/app.js:179-184 | If the last message's content is a prefix of the bubble before the lines, it still is after them |
| Decoder.ResyncLine | ollama-pwa/app.js:178-180 | A content record without an error leaves the last message equal to the whole bubble, markers from earlier lines included |
| Decoder.MarkerStaysOffTranscript | ollama-pwa/app.js:183-185 | A line that carries no content (an error-only record included) leaves the transcript unchanged |
| Transcript.SetLastContent | ollama-pwa/app.js:180 | Replacing the last message's content keeps the length, every earlier message and the last message's role |
| Session.Merge | ollama-pwa/app.js:39 | Each settings key present in the stored record wins; each missing key keeps its default |
| Session.LoadSettings | ollama-pwa/app.js:36-41 | A parsed settings record replaces the settings by its merge over the defaults, whatever they were; a missing or unparseable record leaves them as they were |
| Session.SaveSettings | ollama-pwa/app.js:43-47 | Saving writes a settings record and leaves the history record alone |
| Session.SettingsRoundTrip | ollama-pwa/app.js:36-47 | Saved settings load back unchanged, whatever was in memory |
| Session.LoadHistory | ollama-pwa/app.js:49-55 | With history saving off nothing is read; with it on a stored transcript replaces the current one; a missing or unparseable record changes nothing |
| Session.SaveHistory | ollama-pwa/app.js:57-62 | With history saving off storage is untouched; with it on the history record becomes the transcript; the settings record never changes |
| Session.HistoryRoundTrip | ollama-pwa/app.js:49-62 | With history saving on, a saved transcript loads back unchanged |
| Session.Startup | ollama-pwa/app.js:234-236 | Start-up is not streaming and shows no bubble. Its settings are the stored record merged over the defaults, or the defaults when the record is missing or unparseable. Its transcript is the stored one when history saving is on and a record parses, and empty otherwise |
| Text.StripTrailingSlash | ollama-pwa/app.js:153 | `replace(/\/$/, '')` removes at most one character, a final `/`, and removes it exactly when the string ends with one |
| Session.Endpoint | ollama-pwa/app.js:153 | The request URL is the server URL with at most one trailing slash removed, then the route; the length shows whether a slash was removed |
| Session.AddMessage | ollama-pwa/app.js:92-100 | Adding a message appends exactly it and persists the resulting transcript; the bubble, phase and settings are unchanged |
| Session.AddMessagePersists | ollama-pwa/app.js:92-100 | With history saving on, the transcript loaded back after adding a message is the old one followed by exactly that message |
| Session.Send | ollama-pwa/app.js:135-153 | A blank input or a send while streaming changes nothing and issues no request. Otherwise the user message (trimmed) and an empty assistant message are appended and the lock is taken. The request goes to `…/api/chat` with the model, the whole transcript (trailing empty assistant message included) and `stream: true` |
| Session.Finish | ollama-pwa/app.js:193-196 | The finally block releases the lock and persists the transcript, changing nothing else |
| Session.TransportError | ollama-pwa/app.js:191-196 | A transport failure appends `\n[network] <message>` to the bubble only, then releases the lock and persists the unchanged transcript; the settings do not change |
| Session.Connected | ollama-pwa/app.js:160-162 | Reading starts exactly when the status is 200–299 and there is a body; otherwise the cycle fails with `Request failed: <status>` |
| Session.Chunk | ollama-pwa/app.js:168-190 | A body chunk advances the buffer as `Feed` does and lengthens the bubble by exactly the contributions of the complete lines. It persists nothing, changes no settings, and touches only the last message's content, keeping its role |
| Session.ChunkWithoutContent | ollama-pwa/app.js:174-189 | A chunk none of whose complete lines carries content leaves the transcript unchanged, error markers included |
| Session.ChunkSyncsTranscript | ollama-pwa/app.js:178-184 | After a chunk, the last message holds the bubble as it stood right after the last content-bearing line's content: the old bubble, the earlier lines' contributions and that content. Later error markers stay off it |
| Session.ChunkConcat | ollama-pwa/app.js:166-190 | Two chunks in a row have the same effect on the whole state as their concatenation |
| Session.EndOfStream | ollama-pwa/app.js:169-170 | The end of the body drops the leftover buffer, releases the lock and persists the transcript; transcript, bubble and settings are unchanged |
| Session.NewChat | ollama-pwa/app.js:129-133 | New chat empties and persists the transcript and leaves the streaming phase, the settings and the bubble as they were |
| Session.SaveSettingsForm | ollama-pwa/app.js:217-224 | Blank trimmed URL or model fall back to the defaults, otherwise the trimmed values are kept. The settings are written so that they load back. Switching history saving off removes the history record; leaving it on keeps it |
| Session.SendKeepsInv | ollama-pwa/app.js:137-146 | Sending keeps the invariant that while streaming the last message is the assistant's and a prefix of the bubble |
| Session.ChunkKeepsInv | ollama-pwa/app.js:171-189 | A chunk keeps that invariant and the newline-free buffer |
| Session.ConnectedKeepsInv | ollama-pwa/app.js:160-166 | The response arriving keeps the invariant |
| Session.FinishKeepsInv | ollama-pwa/app.js:191-196 | Ending by end of body or by a transport error keeps the invariant |
| Session.NewChatKeepsInv | ollama-pwa/app.js:129-133 | New chat keeps the invariant |
| Session.SaveSettingsKeepsInv | ollama-pwa/app.js:217-224 | Saving settings keeps the invariant |
| Session.FeedChunks | ollama-pwa/app.js:168-190 | The read loop stays in the reading phase, persists nothing and touches only the last message |
| Session.FeedChunksOnePiece | ollama-pwa/app.js:166-190 | However the body is cut into chunks, the read loop ends in the same state as when the whole body arrives in one chunk |
| Session.RunCycle | ollama-pwa/app.js:135-197 | A whole send: a rejected one leaves the state untouched; one that starts from an idle state always ends idle; the settings and the stored settings record never change; an accepted one grows the transcript by exactly two messages (their contents are in `CycleOutcome`, the final bubble in `CycleBubble` and its two siblings) |
| Session.OfflineCycleBubble | ollama-pwa/app.js:154-192 | When the request cannot be sent, an accepted cycle ends with the bubble showing only `\n[network] <message>` |
| Session.RejectedResponseBubble | ollama-pwa/app.js:160-192 | A response outside 200–299 or without a body ends an accepted cycle with the bubble showing only `\n[network] Request failed: <status>`, whatever the body would have held |
| Session.ReadBubble | ollama-pwa/app.js:166-190 | Reading a whole body into a fresh bubble shows the contributions of the body's complete lines, however it is cut into chunks |
| Session.CycleBubble | ollama-pwa/app.js:160-197 | An accepted response ends the cycle with the bubble showing the contributions of every complete line of the whole body in order, the unterminated tail dropped, followed by `\n[network] <message>` exactly when reading broke off |
| Session.CycleOutcome | ollama-pwa/app.js:135-197 | On every path of an accepted send the lock ends released and the transcript is persisted (if enabled). The transcript grew by the trimmed user message and an assistant message whose content is a prefix of the bubble |
| Session.ReadKeepsCycle | ollama-pwa/app.js:168-190 | Reading the body keeps the cycle's shape |
| Session.SentInCycle | ollama-pwa/app.js:139-146 | An accepted send leaves the transcript grown by exactly the user and empty assistant messages |
| Session.FinishInCycle | ollama-pwa/app.js:193-196 | The finally block keeps the cycle's shape and persists it |
| Session.FailInCycle | ollama-pwa/app.js:191-196 | The network marker only lengthens the bubble, so the cycle's shape survives a failure |
| Session.RejectedCycleChangesNothing | ollama-pwa/app.js:136-137 | A blank input, or a send while streaming, leaves the whole state untouched whatever the server would do |
| Session.NewChatMidStream | ollama-pwa/app.js:129-133 | After new chat mid-stream, the rest of the body leaves the transcript empty. The detached bubble still grows line by line. A record with content shows only its content, because the write to the missing last message throws before its error is read; a record without content still adds its error marker |
| Discovery.TagsUrl | ollama-pwa/app.js:103 | The model list URL is the server URL, less its trailing slash exactly when it ends with one, followed by `/api/tags` |
| Discovery.Insert | ollama-pwa/app.js:109 | Inserting into a sorted list gives a sorted list with one more occurrence of the name |
| Discovery.SortNames | ollama-pwa/app.js:109 | Sorting yields a sorted permutation of the names |
| Discovery.SortedUnique | ollama-pwa/app.js:109 | Two sorted arrangements of the same names are identical, so every correct sort of the names yields exactly the modelled order |
| Discovery.ModelNames | ollama-pwa/app.js:109 | The offered names are a sorted permutation of the listed models, none when the list is missing |
| CacheWorker.Open | ollama-pwa/service-worker.js:14 | Opening reuses an existing namespace or appends an empty one, keeping names unique |
| CacheWorker.PutEntries | ollama-pwa/service-worker.js:33 | Storing changes only the named namespace, whose entries gain (or replace) the stored ones |
| CacheWorker.Match | ollama-pwa/service-worker.js:29-30 | A non-GET request never matches; a GET misses exactly when no namespace holds its URL; a hit is the entry of the first namespace, in creation order, that holds the URL |
| CacheWorker.Install | ollama-pwa/service-worker.js:12-16 | Install succeeds exactly when no asset is listed twice, every asset fetch resolves with a status in 200–299 other than 206, and storage accepts the write. It then stores every asset's response under the version and keeps the namespace's other entries as they were. Otherwise it only opens the namespace. No other namespace changes |
| CacheWorker.Activate | ollama-pwa/service-worker.js:18-22 | Afterwards every namespace has the kept name, and a namespace survives exactly when it existed and has that name (contents untouched) |
| CacheWorker.ActivateAtMostOne | ollama-pwa/service-worker.js:18-22 | With unique names, at most one namespace remains after activation |
| CacheWorker.ActivateIdempotent | ollama-pwa/service-worker.js:18-22 | Activating twice equals activating once |
| CacheWorker.StoreCopy | ollama-pwa/service-worker.js:33 | The detached store always opens `CACHE`. The copy lands under the request's URL only if storage accepts it and `put` allows it (GET, status not 206); it then adds or replaces that one entry and every other `CACHE` entry is kept. Other namespaces are unchanged |
| CacheWorker.HandleFetch | ollama-pwa/service-worker.js:24-39 | Cross-origin requests are not answered and leave the caches unchanged; same-origin requests are always answered; names stay unique |
| CacheWorker.OnInstall | ollama-pwa/service-worker.js:3-16 | The install event succeeds exactly when every entry of `ASSETS` is fetched with an accepted status and storage accepts the write (`ASSETS` repeats no path), and `CACHE` exists afterwards. A successful install holds every asset under `CACHE`; a failed one only opens `CACHE` |
| CacheWorker.OnActivate | ollama-pwa/service-worker.js:18-22 | After the activate event only `CACHE` namespaces remain, an existing `CACHE` survives, and no namespace is created |
| CacheWorker.HitIgnoresNetwork | ollama-pwa/service-worker.js:29-30 | A cache hit returns the cached response, whatever the network or storage would do, and leaves the caches unchanged |
| CacheWorker.MissFetchesAndStores | ollama-pwa/service-worker.js:31-34 | On a miss, a network response is returned whatever the method and status (`res.ok` is not checked) and `CACHE` is opened. A copy is stored under `CACHE` for the request's URL, every other `CACHE` entry kept, exactly when `put` allows it (GET, not 206) and storage accepts it; otherwise the caches only gain the opened namespace. Namespaces other than `CACHE` are never touched |
| CacheWorker.AnswerIgnoresStore | ollama-pwa/service-worker.js:33-34 | The answer does not depend on whether the detached store succeeds |
| CacheWorker.OfflineFallback | ollama-pwa/service-worker.js:35 | On a miss with the network failing, the answer is the lookup of `./index.html`, possibly nothing, and the caches are unchanged |
| CacheWorker.InstalledVersion | ollama-pwa/service-worker.js:12-16 | After a successful install some namespace is named after the version and holds every asset's URL |
| CacheWorker.Redeploy | ollama-pwa/service-worker.js:12-22 | After an install of a new version that succeeded, and its activation, exactly one namespace remains. It is that version and holds every asset, whatever versions existed before |

## Left out

- Rendering and UI are not modelled: `render`, `renderMessage`, `scrollToBottom`, `autoResizeTextarea`, `applySettingsToUI`, opening and closing the settings panel, event wiring, `alert`, and the server label. The bubble is kept only as the text it displays.
- `TextDecoder` is not modelled. Chunks are already-decoded strings, so a multi-byte character split across chunks is outside the model.
- `JSON.parse` and `JSON.stringify` are not modelled. A line's parse result is given by the `parse` parameter. A field's value is represented by the text JavaScript would append, with `None` for a missing or falsy field. Non-string field values and their truthiness (e.g. the number `0`) are not distinguished.
- Stored records of the wrong shape are outside the model, for example a history record that parses to a non-array. A stored slot is either absent, unparseable, or holds a value of the written shape.
- `localStorage` exceptions (quota, storage disabled) are swallowed by the source. The model treats every write as succeeding.
- Interleavings in the session are limited to the modelled events between awaits. In the worker, concurrent fetch events and the timing of the detached `cache.put` are not modelled; only the outcome is, with storage acceptance as a parameter.
- The thrown error's text (`e.message || e`) is a parameter. The status is a natural number printed in decimal.
- URL resolution is not modelled. Asset paths such as `./index.html` stand for their URLs resolved against the worker's location. A URL is its origin plus the rest.
- Parts of the Cache API are not modelled: `Vary` headers, `ignoreSearch`, opaque responses, response cloning and body consumption. Of `put`'s rejection rules, only the non-GET and status-206 rules are modelled. Of `addAll`'s, the non-ok and 206 statuses, a repeated request and a refused write are modelled; a network error response is a rejected fetch.
- Model discovery is reduced to its URL and the name ordering. The request, `res.ok`, the `alert` and the entries without a `name` are left out.
- Discovery.SortNames: orders names by Unicode code point, while JavaScript's default sort compares UTF-16 code units; the two orders differ only between supplementary-plane characters and characters U+E000–U+FFFF.
- Session.NewChat: keeps the source's behaviour of clearing the transcript without checking the lock; no other policy for a new chat during a cycle is modelled.

=== FILE: cache_worker.dfy ===
/**
 The offline cache worker. Cache storage is an ordered list of named
 namespaces, each mapping request URLs to stored responses. Install
 precaches the asset list, activate deletes every other namespace, and fetch
 answers same-origin requests cache-first, then from the network (keeping a
 copy), then with the cached `./index.html`. The network is a parameter:
 what a fetch of a URL returns, or `None` when it rejects.
 */
module CacheWorker {
  import opened Wrappers

  /** A resolved URL: its origin and the rest. Asset paths stand for their URLs resolved
      against the worker's location. */
  datatype Url = Url(origin: string, path: string)

  datatype Request = Request(httpMethod: string, url: Url)

  datatype Response = Response(status: int, body: string)

  datatype Namespace = Namespace(name: string, entries: map<Url, Response>)

  /** `CACHE`: the namespace of the current deployment. */
  const Version := "neon-terminal-v1"

  /** `ASSETS`: the application shell. */
  const Assets: seq<string> :=
    ["./", "./index.html", "./styles.css", "./app.js", "./manifest.webmanifest", "./icons/icon.svg"]

  /** The page served when the network fails. */
  const FallbackPath := "./index.html"

  predicate UniqueNames(caches: seq<Namespace>)
  {
    forall i, j :: 0 <= i < j < |caches| ==> caches[i].name != caches[j].name
  }

  predicate HasName(caches: seq<Namespace>, name: string)
  {
    exists i :: 0 <= i < |caches| && caches[i].name == name
  }

  /** `caches.open(name)`: an existing namespace is reused, a missing one is created last and empty. */
  function Open(caches: seq<Namespace>, name: string): (r: seq<Namespace>)
    ensures HasName(r, name)
    ensures HasName(caches, name) ==> r == caches
    ensures !HasName(caches, name) ==> r == caches + [Namespace(name, map[])]
    ensures UniqueNames(caches) ==> UniqueNames(r)
  {
    if HasName(caches, name) then caches
    else
      var r := caches + [Namespace(name, map[])];
      assert r[|caches|].name == name;
      r
  }

  /** Adds entries to the namespace called `name`, replacing entries for the same URL;
      every other namespace is untouched. */
  function PutEntries(caches: seq<Namespace>, name: string, added: map<Url, Response>): (r: seq<Namespace>)
    ensures |r| == |caches|
    ensures forall i :: 0 <= i < |r| ==> r[i].name == caches[i].name
    ensures forall i :: 0 <= i < |r| && caches[i].name != name ==> r[i] == caches[i]
    ensures forall i :: 0 <= i < |r| && caches[i].name == name ==> r[i].entries == caches[i].entries + added
    ensures UniqueNames(caches) ==> UniqueNames(r)
  {
    seq(|caches|, i requires 0 <= i < |caches| =>
      if caches[i].name == name then caches[i].(entries := caches[i].entries + added) else caches[i])
  }

  /** `caches.match(request)`: a request other than GET never matches; otherwise the first
      namespace, in creation order, holding the URL answers. */
  function Match(caches: seq<Namespace>, req: Request): (r: Option<Response>)
    ensures req.httpMethod != "GET" ==> r == None
    ensures req.httpMethod == "GET" ==>
      (r == None <==> forall i :: 0 <= i < |caches| ==> req.url !in caches[i].entries)
    ensures r.Some? ==> exists i :: && 0 <= i < |caches| && req.url in caches[i].entries
                                   && caches[i].entries[req.url] == r.value
                                   && forall j :: 0 <= j < i ==> req.url !in caches[j].entries
    decreases |caches|
  {
    if req.httpMethod != "GET" || |caches| == 0 then None
    else if req.url in caches[0].entries then Some(caches[0].entries[req.url])
    else
      var rest := Match(caches[1..], req);
      assert forall i :: 1 <= i < |caches| ==> caches[i] == caches[1..][i - 1];
      rest
  }

  /** Every asset fetch resolves with a status `addAll` accepts: in 200–299 and not 206. */
  predicate AllFetched(origin: string, assets: seq<string>, network: Url -> Option<Response>)
  {
    forall p :: p in assets ==>
      && network(Url(origin, p)).Some?
      && 200 <= network(Url(origin, p)).value.status <= 299
      && network(Url(origin, p)).value.status != 206
  }

  /** No request occurs twice in one `addAll` batch; a repeated one makes it reject. */
  predicate Distinct(assets: seq<string>)
  {
    forall i, j :: 0 <= i < j < |assets| ==> assets[i] != assets[j]
  }

  datatype Installed = Installed(caches: seq<Namespace>, succeeded: bool)

  /** The install handler with `CACHE` = `version` and `ASSETS` = `assets`: the namespace is
      opened (created if missing) first; then `addAll` either stores every asset or, if a
      request repeats, a fetch fails or is not accepted, or storage refuses the write
      (`stored` is false), stores none and the install fails. */
  function Install(caches: seq<Namespace>, version: string, assets: seq<string>, origin: string,
                   network: Url -> Option<Response>, stored: bool): (r: Installed)
    ensures r.succeeded <==> Distinct(assets) && AllFetched(origin, assets, network) && stored
    ensures !r.succeeded ==> r.caches == Open(caches, version)
    ensures r.succeeded ==> forall i :: 0 <= i < |r.caches| && r.caches[i].name == version ==>
      forall p :: p in assets ==>
        (Url(origin, p) in r.caches[i].entries
         && r.caches[i].entries[Url(origin, p)] == network(Url(origin, p)).value)
    ensures |r.caches| == |Open(caches, version)|
    ensures r.succeeded ==> forall i :: 0 <= i < |r.caches| && r.caches[i].name == version ==>
      forall u :: (forall p :: p in assets ==> u != Url(origin, p)) ==>
        && (u in r.caches[i].entries <==> u in Open(caches, version)[i].entries)
        && (u in r.caches[i].entries ==> r.caches[i].entries[u] == Open(caches, version)[i].entries[u])
    ensures forall i :: 0 <= i < |r.caches| && r.caches[i].name != version ==> r.caches[i] == Open(caches, version)[i]
    ensures UniqueNames(caches) ==> UniqueNames(r.caches)
  {
    var withVersion := Open(caches, version);
    if Distinct(assets) && AllFetched(origin, assets, network) && stored then
      var added := map u | u in (set p | p in assets :: Url(origin, p)) :: network(u).value;
      Installed(PutEntries(withVersion, version, added), true)
    else Installed(withVersion, false)
  }

  /** The activate handler with `CACHE` = `keep`: every namespace with another name is deleted. */
  function Activate(caches: seq<Namespace>, keep: string): (r: seq<Namespace>)
    ensures forall i :: 0 <= i < |r| ==> r[i].name == keep
    ensures forall ns :: ns in r <==> ns in caches && ns.name == keep
    decreases |caches|
  {
    if |caches| == 0 then []
    else
      var rest := Activate(caches[1..], keep);
      assert forall ns :: ns in caches <==> ns == caches[0] || ns in caches[1..];
      if caches[0].name == keep then
        [caches[0]] + rest
      else rest
  }

  /** With unique names, no later namespace shares the first one's name. */
  lemma TailNamesDiffer(caches: seq<Namespace>)
    requires UniqueNames(caches) && |caches| > 0
    ensures forall ns :: ns in caches[1..] ==> ns.name != caches[0].name
  {
    forall ns | ns in caches[1..] ensures ns.name != caches[0].name {
      var j :| 0 <= j < |caches[1..]| && caches[1..][j] == ns;
      assert caches[j + 1] == ns;
    }
  }

  /** Activation keeps nothing when no namespace has the kept name. */
  lemma {:induction false} ActivateNone(caches: seq<Namespace>, keep: string)
    requires forall i :: 0 <= i < |caches| ==> caches[i].name != keep
    ensures Activate(caches, keep) == []
    decreases |caches|
  {
    if |caches| > 0 {
      ActivateNone(caches[1..], keep);
    }
  }

  /** With unique names, activation leaves at most one namespace. */
  lemma {:induction false} ActivateAtMostOne(caches: seq<Namespace>, keep: string)
    requires UniqueNames(caches)
    ensures |Activate(caches, keep)| <= 1
    decreases |caches|
  {
    if |caches| > 0 {
      if caches[0].name == keep {
        TailNamesDiffer(caches);
        assert forall i :: 0 <= i < |caches[1..]| ==> caches[1..][i] in caches[1..];
        ActivateNone(caches[1..], keep);
      } else {
        ActivateAtMostOne(caches[1..], keep);
      }
    }
  }

  /** Activating twice is activating once. */
  lemma {:induction false} ActivateIdempotent(caches: seq<Namespace>, keep: string)
    ensures Activate(Activate(caches, keep), keep) == Activate(caches, keep)
    decreases |caches|
  {
    if |caches| > 0 {
      ActivateIdempotent(caches[1..], keep);
      if caches[0].name == keep {
        var rest := Activate(caches[1..], keep);
        assert ([caches[0]] + rest)[1..] == rest;
      }
    }
  }

  /** What the worker does with a fetch event: not call `respondWith` at all, or respond
      with a response or with nothing (`undefined`). */
  datatype Answer = PassThrough | Respond(response: Option<Response>)

  datatype Handled = Handled(answer: Answer, caches: seq<Namespace>)

  /** `cache.put` rejects a request other than GET and a 206 response. */
  predicate Storable(req: Request, res: Response)
  {
    req.httpMethod == "GET" && res.status != 206
  }

  /** The detached `caches.open(CACHE).then(cache => cache.put(…))`: the namespace is opened
      (created if missing); the copy lands only if `put` accepts it and storage does (`stored`). */
  function StoreCopy(caches: seq<Namespace>, req: Request, res: Response, stored: bool): (r: seq<Namespace>)
    ensures HasName(r, Version)
    ensures |r| == |Open(caches, Version)|
    ensures forall i :: 0 <= i < |r| && r[i].name != Version ==> r[i] == Open(caches, Version)[i]
    ensures stored && Storable(req, res) ==>
      forall i :: 0 <= i < |r| && r[i].name == Version ==> req.url in r[i].entries && r[i].entries[req.url] == res
    ensures stored && Storable(req, res) ==>
      forall i :: 0 <= i < |r| && r[i].name == Version ==> r[i].entries == Open(caches, Version)[i].entries[req.url := res]
    ensures !(stored && Storable(req, res)) ==> r == Open(caches, Version)
    ensures UniqueNames(caches) ==> UniqueNames(r)
  {
    var withVersion := Open(caches, Version);
    if stored && Storable(req, res) then PutEntries(withVersion, Version, map[req.url := res]) else withVersion
  }

  /** The fetch handler. `origin` is the worker's own origin, `network` the outcome of
      `fetch(event.request)` and `stored` whether storage accepts the copy. */
  function HandleFetch(caches: seq<Namespace>, origin: string, req: Request,
                       network: Option<Response>, stored: bool): (r: Handled)
    ensures req.url.origin != origin ==> r == Handled(PassThrough, caches)
    ensures req.url.origin == origin ==> r.answer.Respond?
    ensures UniqueNames(caches) ==> UniqueNames(r.caches)
  {
    if req.url.origin != origin then Handled(PassThrough, caches)
    else match Match(caches, req)
      case Some(hit) => Handled(Respond(Some(hit)), caches)
      case None =>
        match network
        case Some(res) => Handled(Respond(Some(res)), StoreCopy(caches, req, res, stored))
        case None => Handled(Respond(Match(caches, Request("GET", Url(origin, FallbackPath)))), caches)
  }

  /** The worker's own events, with `CACHE` and `ASSETS`. */
  function OnInstall(caches: seq<Namespace>, origin: string, network: Url -> Option<Response>,
                     stored: bool): (r: Installed)
    ensures r.succeeded <==> AllFetched(origin, Assets, network) && stored
    ensures HasName(r.caches, Version)
    ensures !r.succeeded ==> r.caches == Open(caches, Version)
    ensures r.succeeded ==> forall i :: 0 <= i < |r.caches| && r.caches[i].name == Version ==>
      forall p :: p in Assets ==> Url(origin, p) in r.caches[i].entries
  {
    AssetsDistinct();
    Install(caches, Version, Assets, origin, network, stored)
  }

  /** `ASSETS` lists no path twice, so its `addAll` never rejects for a repeated request. */
  lemma AssetsDistinct()
    ensures Distinct(Assets)
  {
  }

  function OnActivate(caches: seq<Namespace>): (r: seq<Namespace>)
    ensures forall i :: 0 <= i < |r| ==> r[i].name == Version
    ensures forall ns :: ns in caches && ns.name == Version ==> ns in r
    ensures forall ns :: ns in r ==> ns in caches
  {
    Activate(caches, Version)
  }

  /** A cache hit is answered from the cache, whatever the network would do, and storage is
      unchanged. */
  lemma HitIgnoresNetwork(caches: seq<Namespace>, origin: string, req: Request, n1: Option<Response>,
                          n2: Option<Response>, s1: bool, s2: bool)
    requires req.url.origin == origin && Match(caches, req).Some?
    ensures HandleFetch(caches, origin, req, n1, s1) == HandleFetch(caches, origin, req, n2, s2)
    ensures HandleFetch(caches, origin, req, n1, s1) == Handled(Respond(Match(caches, req)), caches)
  {
  }

  /** On a miss the live response is returned whatever the method and status, `CACHE` is
      opened, and a copy is kept under `CACHE` for the request's URL exactly when `put`
      allows it and storage accepts it. */
  lemma MissFetchesAndStores(caches: seq<Namespace>, origin: string, req: Request, res: Response, stored: bool)
    requires req.url.origin == origin && Match(caches, req).None?
    ensures var h := HandleFetch(caches, origin, req, Some(res), stored);
      && h.answer == Respond(Some(res))
      && HasName(h.caches, Version)
      && (stored && Storable(req, res) ==>
            forall i :: 0 <= i < |h.caches| && h.caches[i].name == Version ==>
              h.caches[i].entries == Open(caches, Version)[i].entries[req.url := res])
      && (!(stored && Storable(req, res)) ==> h.caches == Open(caches, Version))
      && |h.caches| == |Open(caches, Version)|
      && forall i :: 0 <= i < |h.caches| && h.caches[i].name != Version ==> h.caches[i] == Open(caches, Version)[i]
  {
  }

  /** The answer never depends on whether the detached store succeeds. */
  lemma AnswerIgnoresStore(caches: seq<Namespace>, origin: string, req: Request, network: Option<Response>)
    ensures HandleFetch(caches, origin, req, network, true).answer == HandleFetch(caches, origin, req, network, false).answer
  {
  }

  /** When the network fails on a miss, the answer is whatever is cached for `./index.html`
      (possibly nothing), and storage is unchanged. */
  lemma OfflineFallback(caches: seq<Namespace>, origin: string, req: Request, stored: bool)
    requires req.url.origin == origin && Match(caches, req).None?
    ensures HandleFetch(caches, origin, req, None, stored)
      == Handled(Respond(Match(caches, Request("GET", Url(origin, FallbackPath)))), caches)
  {
  }

  /** A successful install leaves a namespace named `version` holding every asset. */
  lemma InstalledVersion(caches: seq<Namespace>, version: string, assets: seq<string>,
                         origin: string, network: Url -> Option<Response>, stored: bool) returns (i: nat)
    requires Install(caches, version, assets, origin, network, stored).succeeded
    ensures var installed := Install(caches, version, assets, origin, network, stored).caches;
      && i < |installed| && installed[i].name == version
      && forall p :: p in assets ==> Url(origin, p) in installed[i].entries
  {
    var withVersion := Open(caches, version);
    i :| 0 <= i < |withVersion| && withVersion[i].name == version;
  }

  /** A redeploy: installing a new version and activating it leaves exactly that namespace,
      holding every asset, whatever versions existed before. */
  lemma {:induction false} Redeploy(caches: seq<Namespace>, version: string, assets: seq<string>,
                                    origin: string, network: Url -> Option<Response>, stored: bool)
    requires UniqueNames(caches)
    requires Install(caches, version, assets, origin, network, stored).succeeded
    ensures var r := Activate(Install(caches, version, assets, origin, network, stored).caches, version);
      && |r| == 1 && r[0].name == version
      && forall p :: p in assets ==> Url(origin, p) in r[0].entries
  {
    var installed := Install(caches, version, assets, origin, network, stored).caches;
    var i := InstalledVersion(caches, version, assets, origin, network, stored);
    var r := Activate(installed, version);
    assert installed[i] in r;
    ActivateAtMostOne(installed, version);
    assert r[0] == installed[i];
  }
}

=== FILE: decoder.dfy ===
/**
 The newline-delimited record decoder run inside one chat cycle: text chunks
 are appended to a carry-over buffer, the buffer is split on newlines, the
 final piece is kept as the new buffer, and each complete line is classified
 and applied to the assistant bubble and the transcript.
 */
module Decoder {
  import opened Wrappers
  import opened Text
  import opened Transcript

  /** What parsing one line as JSON yields. `Invalid` covers a parse failure and any
      value whose `.message` access throws (`null`). For a record, `content` is the
      text of `message.content` and `error` the text of `error`, `None` when the
      field is missing. */
  datatype Parsed = Invalid | Record(content: Option<string>, error: Option<string>)

  /** The text a field contributes when JavaScript finds it truthy. */
  function Truthy(field: Option<string>): string
  {
    match field
    case Some(t) => t
    case None => ""
  }

  /** The two things a line can change: the assistant bubble's displayed text and the transcript. */
  datatype Progress = Progress(bubble: string, history: seq<Message>)

  /** The complete lines of one split and the new carry-over buffer. */
  datatype Fed = Fed(lines: seq<string>, buffer: string)

  /** One arrival of text: append it to the buffer, split on newlines and keep the last
      piece. The buffer never holds a newline, and nothing is lost or invented:
      the lines, a newline after each, and the new buffer spell the old buffer plus the chunk. */
  function Feed(buffer: string, chunk: string): (r: Fed)
    ensures NoNewline(r.buffer)
    ensures forall i :: 0 <= i < |r.lines| ==> NoNewline(r.lines[i])
    ensures Join(r.lines + [r.buffer]) == buffer + chunk
  {
    var parts := Split(buffer + chunk);
    assert parts[..|parts| - 1] + [parts[|parts| - 1]] == parts;
    Fed(parts[..|parts| - 1], parts[|parts| - 1])
  }

  /** The three facts `Feed` ensures determine its result. */
  lemma {:induction false} FeedUnique(buffer: string, chunk: string, lines: seq<string>, rest: string)
    requires NoNewline(rest)
    requires forall i :: 0 <= i < |lines| ==> NoNewline(lines[i])
    requires Join(lines + [rest]) == buffer + chunk
    ensures Feed(buffer, chunk) == Fed(lines, rest)
  {
    var parts := lines + [rest];
    assert forall i :: 0 <= i < |parts| ==> NoNewline(parts[i]) by {
      forall i | 0 <= i < |parts| ensures NoNewline(parts[i]) {
        if i < |lines| { assert parts[i] == lines[i]; }
      }
    }
    SplitJoin(parts);
    assert parts[..|parts| - 1] == lines;
  }

  /** Fragmentation invariance of the buffer: feeding `c1` then `c2` yields the lines of
      both calls, in order, and the same buffer as feeding `c1 + c2` at once. */
  lemma {:induction false} FeedConcat(buffer: string, c1: string, c2: string)
    ensures var f1 := Feed(buffer, c1); var f2 := Feed(f1.buffer, c2);
      Feed(buffer, c1 + c2) == Fed(f1.lines + f2.lines, f2.buffer)
  {
    var f1 := Feed(buffer, c1);
    var f2 := Feed(f1.buffer, c2);
    var all := f1.lines + f2.lines;
    FeedTwiceSpells(buffer, c1, c2);
    forall i | 0 <= i < |all| ensures NoNewline(all[i]) {
      if i < |f1.lines| { assert all[i] == f1.lines[i]; } else { assert all[i] == f2.lines[i - |f1.lines|]; }
    }
    FeedUnique(buffer, c1 + c2, all, f2.buffer);
  }

  /** The lines of two successive feeds and the final buffer spell both chunks. */
  lemma FeedTwiceSpells(buffer: string, c1: string, c2: string)
    ensures var f1 := Feed(buffer, c1); var f2 := Feed(f1.buffer, c2);
      Join(f1.lines + f2.lines + [f2.buffer]) == buffer + (c1 + c2)
  {
    var f1 := Feed(buffer, c1);
    var f2 := Feed(f1.buffer, c2);
    assert f1.lines + f2.lines + [f2.buffer] == f1.lines + (f2.lines + [f2.buffer]);
    JoinNest(f1.lines, f2.lines + [f2.buffer]);
    JoinGlue(f1.lines, f1.buffer, c2);
    ConcatAssoc(buffer, c1, c2);
  }

  /** Text appended after a join lands in the last piece. */
  lemma JoinGlue(xs: seq<string>, a: string, c: string)
    ensures Join(xs + [a]) + c == Join(xs + [a + c])
  {
    if |xs| > 0 {
      JoinAppend(xs, [a]);
      JoinAppend(xs, [a + c]);
    } else {
      assert xs + [a] == [a];
      assert xs + [a + c] == [a + c];
    }
  }

  /** Replacing a last piece by a join of pieces splices those pieces in. */
  lemma JoinNest(xs: seq<string>, ys: seq<string>)
    requires |ys| > 0
    ensures Join(xs + [Join(ys)]) == Join(xs + ys)
  {
    if |xs| > 0 {
      JoinAppend(xs, [Join(ys)]);
      JoinAppend(xs, ys);
    } else {
      assert xs + [Join(ys)] == [Join(ys)];
      assert xs + ys == ys;
    }
  }

  /** Handles one complete line. A blank line (`!line.trim()`, which by `Trim`'s contract
      is `IsBlank(line)`) is skipped; an unparseable one is dropped; a record is applied
      by `ApplyRecord`. */
  function ApplyLine(p: Progress, line: string, parse: string -> Parsed): (r: Progress)
    ensures r.bubble == p.bubble + Contribution(line, parse, |p.history| > 0)
    ensures Synced(p) ==> Synced(r)
    ensures |r.history| == |p.history|
    ensures |p.history| > 0 ==> r.history[..|r.history| - 1] == p.history[..|p.history| - 1]
    ensures |p.history| > 0 ==> r.history[|r.history| - 1].role == p.history[|p.history| - 1].role
  {
    if IsBlank(line) then p
    else match parse(line)
      case Invalid => p
      case Record(content, error) => ApplyRecord(p, Truthy(content), Truthy(error))
  }

  /** One parsed record with content text `c` and error text `e` ("" when missing or falsy).
      Content is appended to the bubble and the transcript's last message is set to the whole
      bubble; an error then appends an `[error]` marker to the bubble only. With an empty
      transcript the assignment to `history[history.length - 1]` throws, the inner `catch`
      swallows it, and the error is never looked at. */
  function ApplyRecord(p: Progress, c: string, e: string): (r: Progress)
    ensures r.bubble == p.bubble + RecordText(c, e, |p.history| > 0)
    ensures Synced(p) ==> Synced(r)
    ensures |r.history| == |p.history|
    ensures |p.history| > 0 ==> r.history[..|r.history| - 1] == p.history[..|p.history| - 1]
    ensures |p.history| > 0 ==> r.history[|r.history| - 1].role == p.history[|p.history| - 1].role
    ensures |p.history| > 0 && c != "" ==> r.history[|r.history| - 1].content == p.bubble + c
    ensures c == "" ==> r.history == p.history
  {
    if c == "" then
      ShowMarker(p, e)
    else if |p.history| == 0 then
      ShowContent(p, c)
    else
      ConcatAssoc(p.bubble, c, Marker(e));
      ShowMarker(ShowContent(p, c), e)
  }

  /** `bubble.textContent += content` followed by the write of the whole bubble into the
      last message, which is skipped (it throws) when the transcript is empty. */
  function ShowContent(p: Progress, c: string): (r: Progress)
    ensures r.bubble == p.bubble + c
    ensures |r.history| == |p.history|
    ensures |p.history| > 0 ==> r.history[..|r.history| - 1] == p.history[..|p.history| - 1]
    ensures |p.history| > 0 ==> r.history[|r.history| - 1] == Message(p.history[|p.history| - 1].role, r.bubble)
  {
    Progress(p.bubble + c, if |p.history| == 0 then p.history else SetLastContent(p.history, p.bubble + c))
  }

  /** The `[error]` marker for error text `e`; nothing when `e` is empty. */
  function Marker(e: string): string
  {
    if e != "" then "\n[error] " + e else ""
  }

  /** `bubble.textContent += marker`: the transcript does not see it. */
  function ShowMarker(p: Progress, e: string): (r: Progress)
    ensures r.history == p.history
    ensures r.bubble == p.bubble + Marker(e)
    ensures Synced(p) ==> Synced(r)
  {
    Progress(p.bubble + Marker(e), p.history)
  }

  /** The text a record adds to the bubble; `synced` says the transcript is non-empty. */
  function RecordText(c: string, e: string, synced: bool): string
  {
    if c != "" && !synced then c else c + Marker(e)
  }

  /** The text one line adds to the bubble. */
  function Contribution(line: string, parse: string -> Parsed, synced: bool): string
  {
    if IsBlank(line) then ""
    else match parse(line)
      case Invalid => ""
      case Record(content, error) => RecordText(Truthy(content), Truthy(error), synced)
  }

  /** Concatenation of the lines' contributions, in line order. */
  function Appended(lines: seq<string>, parse: string -> Parsed, synced: bool): string
  {
    if |lines| == 0 then "" else Contribution(lines[0], parse, synced) + Appended(lines[1..], parse, synced)
  }

  /** True when the line is a record that writes its content into the transcript. */
  predicate Resyncs(line: string, parse: string -> Parsed)
  {
    !IsBlank(line) && parse(line).Record? && Truthy(parse(line).content) != ""
  }

  /** True when the line adds an `[error]` marker (or, unsynced, content) that the
      transcript does not receive with it. */
  predicate Marks(line: string, parse: string -> Parsed)
  {
    !IsBlank(line) && parse(line).Record? && Truthy(parse(line).error) != ""
  }

  /** The `for (const line of lines)` loop: every complete line, in order. Only the last
      transcript message can change, and it keeps its role. */
  function ApplyLines(p: Progress, lines: seq<string>, parse: string -> Parsed): (r: Progress)
    ensures |r.history| == |p.history|
    ensures |p.history| > 0 ==> r.history[..|r.history| - 1] == p.history[..|p.history| - 1]
    ensures |p.history| > 0 ==> r.history[|r.history| - 1].role == p.history[|p.history| - 1].role
    decreases |lines|
  {
    if |lines| == 0 then p else ApplyLines(ApplyLine(p, lines[0], parse), lines[1..], parse)
  }

  /** Lines that are blank or unparseable change nothing. */
  lemma SkippedLineChangesNothing(p: Progress, line: string, parse: string -> Parsed)
    requires IsBlank(line) || parse(line) == Invalid
    ensures ApplyLine(p, line, parse) == p
  {
  }

  /** Applying lines is a left fold: a prefix is applied first, then the rest, so a
      skipped line never stops the lines after it. */
  lemma {:induction false} ApplyLinesAppend(p: Progress, a: seq<string>, b: seq<string>, parse: string -> Parsed)
    ensures ApplyLines(p, a + b, parse) == ApplyLines(ApplyLines(p, a, parse), b, parse)
    decreases |a|
  {
    if |a| > 0 {
      assert (a + b)[1..] == a[1..] + b;
      ApplyLinesAppend(ApplyLine(p, a[0], parse), a[1..], b, parse);
    } else {
      assert a + b == b;
    }
  }

  /** The bubble grows by exactly the lines' contributions, in line order. */
  lemma {:induction false} ApplyLinesBubble(p: Progress, lines: seq<string>, parse: string -> Parsed)
    ensures ApplyLines(p, lines, parse).bubble == p.bubble + Appended(lines, parse, |p.history| > 0)
    decreases |lines|
  {
    if |lines| > 0 {
      var q := ApplyLine(p, lines[0], parse);
      var c := Contribution(lines[0], parse, |p.history| > 0);
      var rest := Appended(lines[1..], parse, |p.history| > 0);
      ApplyLinesBubble(q, lines[1..], parse);
      ConcatAssoc(p.bubble, c, rest);
    }
  }

  /** The transcript's last message is always a prefix of the bubble, and it equals
      the bubble again after any record with content; it falls behind only by markers. */
  predicate Synced(p: Progress)
  {
    |p.history| > 0 ==> p.history[|p.history| - 1].content <= p.bubble
  }

  lemma {:induction false} ApplyLinesKeepsPrefix(p: Progress, lines: seq<string>, parse: string -> Parsed)
    requires Synced(p)
    ensures Synced(ApplyLines(p, lines, parse))
    decreases |lines|
  {
    if |lines| > 0 {
      var q := ApplyLine(p, lines[0], parse);
      ApplyLinesKeepsPrefix(q, lines[1..], parse);
    }
  }

  /** A line ending in a content record and carrying no error leaves the last message
      equal to the whole bubble. */
  lemma ResyncLine(p: Progress, line: string, parse: string -> Parsed)
    requires |p.history| > 0
    requires Resyncs(line, parse) && !Marks(line, parse)
    ensures var q := ApplyLine(p, line, parse); q.history[|q.history| - 1].content == q.bubble
  {
  }

  /** A marker-only line (an error and no content) never reaches the transcript. */
  lemma MarkerStaysOffTranscript(p: Progress, line: string, parse: string -> Parsed)
    requires !Resyncs(line, parse)
    ensures ApplyLine(p, line, parse).history == p.history
  {
  }
  /** Lines none of which carries content leave the transcript exactly as it was. */
  lemma {:induction false} ApplyLinesNoSync(p: Progress, lines: seq<string>, parse: string -> Parsed)
    requires forall i :: 0 <= i < |lines| ==> !Resyncs(lines[i], parse)
    ensures ApplyLines(p, lines, parse).history == p.history
    decreases |lines|
  {
    if |lines| > 0 {
      MarkerStaysOffTranscript(p, lines[0], parse);
      ApplyLinesNoSync(ApplyLine(p, lines[0], parse), lines[1..], parse);
    }
  }

  /** After the lines `a`, then a line `l` with content, then lines `b` without content,
      the last message holds the bubble as it stood right after `l`'s content: the
      contributions of `a` followed by that content. Markers that came later stay off it. */
  lemma ApplyLinesLastSync(p: Progress, a: seq<string>, l: string, b: seq<string>, parse: string -> Parsed)
    requires |p.history| > 0 && Resyncs(l, parse)
    requires forall i :: 0 <= i < |b| ==> !Resyncs(b[i], parse)
    ensures var r := ApplyLines(p, a + [l] + b, parse);
      r.history[|r.history| - 1].content == p.bubble + Appended(a, parse, true) + Truthy(parse(l).content)
  {
    var q := ApplyLines(p, a, parse);
    ApplyLinesAppend(p, a + [l], b, parse);
    ApplyLinesAppend(p, a, [l], parse);
    ApplyLinesBubble(p, a, parse);
    var q1 := ApplyLine(q, l, parse);
    assert ApplyLines(q, [l], parse) == q1 by {
      assert [l][1..] == [];
    }
    ApplyLinesNoSync(q1, b, parse);
  }
}

=== FILE: discovery.dfy ===
/** The pure part of model discovery: where the model list is fetched from and how the
    names are ordered before they are offered. */
module Discovery {
  import opened Wrappers
  import opened Text
  import opened Session

  /** The model list endpoint, `…/api/tags`. */
  function TagsUrl(serverUrl: string): (r: string)
    ensures exists base :: r == base + "/api/tags" && (serverUrl == base || serverUrl == base + "/")
    ensures |r| == |serverUrl| + |"/api/tags"| <==> (|serverUrl| == 0 || serverUrl[|serverUrl| - 1] != '/')
  {
    Endpoint(serverUrl, "/api/tags")
  }

  predicate Sorted(names: seq<string>)
  {
    forall i :: 0 < i < |names| ==> LexLe(names[i - 1], names[i])
  }

  /** The first name of a sorted list precedes every name in it. */
  lemma {:induction false} SortedHeadLeast(s: seq<string>, i: int)
    requires Sorted(s) && 0 <= i < |s|
    ensures LexLe(s[0], s[i])
  {
    if i == 0 {
      LexLeTotal(s[0], s[0]);
    } else {
      SortedHeadLeast(s, i - 1);
      LexLeTransitive(s[0], s[i - 1], s[i]);
    }
  }

  /** Two sorted arrangements of the same names start with the same name. */
  lemma SortedSameHead(a: seq<string>, b: seq<string>)
    requires Sorted(a) && Sorted(b) && multiset(a) == multiset(b) && |a| > 0
    ensures |b| > 0 && a[0] == b[0]
  {
    assert a[0] in multiset(b);
    var j :| 0 <= j < |b| && b[j] == a[0];
    assert b[0] in multiset(a);
    var k :| 0 <= k < |a| && a[k] == b[0];
    SortedHeadLeast(b, j);
    SortedHeadLeast(a, k);
    LexLeAntisymmetric(a[0], b[0]);
  }

  /** Dropping the first name of a sorted list leaves it sorted. */
  lemma SortedTail(s: seq<string>)
    requires Sorted(s) && |s| > 0
    ensures Sorted(s[1..])
  {
    assert forall i :: 0 < i < |s| - 1 ==> s[1..][i - 1] == s[i] && s[1..][i] == s[i + 1];
  }

  /** Equal multisets with equal first elements have equal tails. */
  lemma SameTails(a: seq<string>, b: seq<string>)
    requires multiset(a) == multiset(b) && |a| > 0 && |b| > 0 && a[0] == b[0]
    ensures multiset(a[1..]) == multiset(b[1..])
  {
    assert a == [a[0]] + a[1..] && b == [b[0]] + b[1..];
    assert multiset(a[1..]) == multiset(a) - multiset{a[0]};
    assert multiset(b[1..]) == multiset(b) - multiset{b[0]};
  }

  /** A sorted arrangement of a multiset of names is unique, so any correct sort
      yields exactly `SortNames`' result, whatever algorithm it uses. */
  lemma {:induction false} SortedUnique(a: seq<string>, b: seq<string>)
    requires Sorted(a) && Sorted(b) && multiset(a) == multiset(b)
    ensures a == b
    decreases |a|
  {
    if |a| == 0 {
      assert |b| == |multiset(b)| == 0;
    } else {
      SortedSameHead(a, b);
      SameTails(a, b);
      SortedTail(a);
      SortedTail(b);
      SortedUnique(a[1..], b[1..]);
      assert a == [a[0]] + a[1..] && b == [b[0]] + b[1..];
    }
  }

  /** Inserts one name into a sorted list. */
  function Insert(x: string, s: seq<string>): (r: seq<string>)
    requires Sorted(s)
    ensures Sorted(r)
    ensures multiset(r) == multiset(s) + multiset{x}
    ensures r[0] == x || (|s| > 0 && r[0] == s[0])
  {
    if |s| == 0 || LexLe(x, s[0]) then [x] + s
    else
      LexLeTotal(x, s[0]);
      var rest := Insert(x, s[1..]);
      assert s == [s[0]] + s[1..];
      [s[0]] + rest
  }

  /** `names.sort()` with no comparator: the same names, in ascending order. */
  function SortNames(names: seq<string>): (r: seq<string>)
    ensures Sorted(r)
    ensures multiset(r) == multiset(names)
  {
    if |names| == 0 then []
    else
      assert names == [names[0]] + names[1..];
      Insert(names[0], SortNames(names[1..]))
  }

  /** `(data.models || []).map(m => m.name).sort()`: a missing list counts as empty. */
  function ModelNames(models: Option<seq<string>>): (r: seq<string>)
    ensures Sorted(r)
    ensures multiset(r) == multiset(models.GetOr([]))
  {
    SortNames(models.GetOr([]))
  }
}

=== FILE: session.dfy ===
/**
 The chat session: settings, the transcript, the `isStreaming` lock and the
 persisted state, with one transition per thing that can happen to them —
 a send, the response arriving, a body chunk, the end of the body, a
 transport failure, "new chat" and the settings form being saved.
 Storage holds two records, under the keys `neon/settings` and
 `neon/history`; reading a record is JSON parsing, so a record may also be
 unparseable.
 */
module Session {
  import opened Wrappers
  import opened Text
  import opened Transcript
  import opened Decoder

  datatype Settings = Settings(serverUrl: string, model: string, saveHistory: bool)

  const Defaults := Settings("http://192.168.50.50:11434", "llama3.1", true)

  /** A parsed settings record: each key may be missing. */
  datatype Overrides = Overrides(serverUrl: Option<string>, model: Option<string>, saveHistory: Option<bool>)

  /** One storage key: nothing stored, something `JSON.parse` rejects, or a parsed value. */
  datatype Slot<T> = Absent | Malformed | Stored(value: T)

  datatype Storage = Storage(settings: Slot<Overrides>, history: Slot<seq<Message>>)

  /** `{ ...DEFAULTS, ...parsed }`: every key present in the record wins, every missing
      key keeps its default. */
  function Merge(o: Overrides): (r: Settings)
    ensures o.serverUrl.Some? ==> r.serverUrl == o.serverUrl.value
    ensures o.serverUrl.None? ==> r.serverUrl == Defaults.serverUrl
    ensures o.model.Some? ==> r.model == o.model.value
    ensures o.model.None? ==> r.model == Defaults.model
    ensures o.saveHistory.Some? ==> r.saveHistory == o.saveHistory.value
    ensures o.saveHistory.None? ==> r.saveHistory == Defaults.saveHistory
  {
    Settings(o.serverUrl.GetOr(Defaults.serverUrl), o.model.GetOr(Defaults.model),
             o.saveHistory.GetOr(Defaults.saveHistory))
  }

  /** `loadSettings`: a parsed record replaces the settings (merged over the defaults);
      a missing or unparseable one leaves them as they are. */
  function LoadSettings(current: Settings, store: Storage): (r: Settings)
    ensures store.settings.Stored? ==> r == Merge(store.settings.value)
    ensures !store.settings.Stored? ==> r == current
  {
    match store.settings
    case Stored(o) => Merge(o)
    case _ => current
  }

  /** `saveSettings`: the settings are written with every key present. */
  function SaveSettings(s: Settings, store: Storage): (r: Storage)
    ensures r.history == store.history
    ensures r.settings.Stored?
  {
    store.(settings := Stored(Overrides(Some(s.serverUrl), Some(s.model), Some(s.saveHistory))))
  }

  /** Saved settings load back unchanged, whatever was in memory before. */
  lemma SettingsRoundTrip(s: Settings, current: Settings, store: Storage)
    ensures LoadSettings(current, SaveSettings(s, store)) == s
  {
  }

  /** `loadHistory`: with history saving off nothing is read; otherwise a parsed
      record replaces the transcript. */
  function LoadHistory(settings: Settings, history: seq<Message>, store: Storage): (r: seq<Message>)
    ensures !settings.saveHistory ==> r == history
    ensures settings.saveHistory && store.history.Stored? ==> r == store.history.value
    ensures !store.history.Stored? ==> r == history
  {
    if !settings.saveHistory then history
    else match store.history
      case Stored(h) => h
      case _ => history
  }

  /** `saveHistory`: with history saving off storage is left alone. */
  function SaveHistory(settings: Settings, history: seq<Message>, store: Storage): (r: Storage)
    ensures r.settings == store.settings
    ensures !settings.saveHistory ==> r == store
    ensures settings.saveHistory ==> r.history == Stored(history)
  {
    if settings.saveHistory then store.(history := Stored(history)) else store
  }

  /** A saved transcript loads back unchanged when history saving is on. */
  lemma HistoryRoundTrip(settings: Settings, h: seq<Message>, current: seq<Message>, store: Storage)
    requires settings.saveHistory
    ensures LoadHistory(settings, current, SaveHistory(settings, h, store)) == h
  {
  }

  /** Where `sendMessage` is: not in a cycle, awaiting the `fetch`, or reading the body
      with the given carry-over buffer. */
  datatype Phase = Idle | Awaiting | Reading(buffer: string)

  /** The whole client state; `bubble` is the displayed text of the latest assistant bubble. */
  datatype App = App(settings: Settings, history: seq<Message>, phase: Phase, bubble: string, store: Storage)
  {
    /** `appState.isStreaming`: set on entering the `try`, cleared in the `finally`. */
    predicate IsStreaming() {
      !phase.Idle?
    }
  }

  /** `init`: load the settings over the defaults, then the history. */
  function Startup(store: Storage): (r: App)
    ensures !r.IsStreaming()
    ensures r.settings == LoadSettings(Defaults, store)
    ensures store.settings.Stored? ==> r.settings == Merge(store.settings.value)
    ensures !store.settings.Stored? ==> r.settings == Defaults
    ensures r.settings.saveHistory && store.history.Stored? ==> r.history == store.history.value
    ensures !r.settings.saveHistory || !store.history.Stored? ==> r.history == []
    ensures r.bubble == "" && r.store == store
  {
    var settings := LoadSettings(Defaults, store);
    App(settings, LoadHistory(settings, [], store), Idle, "", store)
  }

  /** The JSON body of the chat request. */
  datatype Payload = Payload(model: string, messages: seq<Message>, stream: bool)

  datatype ChatRequest = ChatRequest(url: string, payload: Payload)

  /** An API endpoint: the server URL with at most one trailing slash removed, then the route. */
  function Endpoint(serverUrl: string, route: string): (r: string)
    ensures exists base :: r == base + route && (serverUrl == base || serverUrl == base + "/")
    ensures |r| == |serverUrl| + |route| <==> (|serverUrl| == 0 || serverUrl[|serverUrl| - 1] != '/')
  {
    StripTrailingSlash(serverUrl) + route
  }

  /** The chat endpoint, `…/api/chat`. */
  function ChatUrl(serverUrl: string): string
  {
    Endpoint(serverUrl, "/api/chat")
  }

  /** `addMessage`: push the message and persist the transcript. */
  function AddMessage(app: App, role: Role, content: string): (r: App)
    ensures r.history == app.history + [Message(role, content)]
    ensures r.store == SaveHistory(app.settings, r.history, app.store)
    ensures r.phase == app.phase && r.settings == app.settings && r.bubble == app.bubble
  {
    var history := app.history + [Message(role, content)];
    app.(history := history, store := SaveHistory(app.settings, history, app.store))
  }

  /** The result of `sendMessage` up to its `fetch`: the new state and the request issued, if any. */
  datatype Sent = Sent(app: App, request: Option<ChatRequest>)

  /** `sendMessage` up to the `fetch`. A blank input, or any input while a cycle is in
      flight, changes nothing and issues nothing. Otherwise the trimmed text is appended as
      a user message, an empty assistant message follows it, the lock is taken, and the
      request carries the whole transcript — the empty assistant message included. */
  function Send(app: App, input: string): (r: Sent)
    ensures IsBlank(input) || app.IsStreaming() ==> r == Sent(app, None)
    ensures !IsBlank(input) && !app.IsStreaming() ==>
      && r.app.history == app.history + [Message(User, Trim(input)), Message(Assistant, "")]
      && r.app.phase == Awaiting && r.app.bubble == "" && r.app.settings == app.settings
      && r.request == Some(ChatRequest(ChatUrl(app.settings.serverUrl),
                                       Payload(app.settings.model, r.app.history, true)))
      && r.app.store == SaveHistory(app.settings, r.app.history, app.store)
  {
    var content := Trim(input);
    if content == "" || app.IsStreaming() then Sent(app, None)
    else
      var withUser := AddMessage(app, User, content);
      var withBubble := AddMessage(withUser, Assistant, "").(bubble := "");
      var started := withBubble.(phase := Awaiting);
      var payload := Payload(started.settings.model, started.history, true);
      assert started.history == app.history + [Message(User, content), Message(Assistant, "")];
      Sent(started, Some(ChatRequest(ChatUrl(started.settings.serverUrl), payload)))
  }

  /** The `finally` block: the lock is released and the transcript persisted. */
  function Finish(app: App): (r: App)
    ensures !r.IsStreaming()
    ensures r.history == app.history && r.bubble == app.bubble && r.settings == app.settings
    ensures r.store == SaveHistory(app.settings, app.history, app.store)
  {
    app.(phase := Idle, store := SaveHistory(app.settings, app.history, app.store))
  }

  /** Decimal digits of a natural number, as template interpolation writes it. */
  function DecimalString(n: nat): string
    decreases n
  {
    var digit := "0123456789"[n % 10];
    if n < 10 then [digit] else DecimalString(n / 10) + [digit]
  }

  /** The `catch` block: a `[network]` marker goes to the bubble only, then `finally` runs. */
  function TransportError(app: App, message: string): (r: App)
    requires app.IsStreaming()
    ensures !r.IsStreaming()
    ensures r.history == app.history && r.settings == app.settings
    ensures r.bubble == app.bubble + "\n[network] " + message
    ensures r.store == SaveHistory(app.settings, app.history, app.store)
  {
    Finish(app.(bubble := app.bubble + "\n[network] " + message))
  }

  /** The `fetch` resolved. A status outside 200–299, or no body, throws
      `Request failed: <status>` into the `catch`; otherwise reading starts with an empty buffer. */
  function Connected(app: App, status: nat, hasBody: bool): (r: App)
    requires app.phase == Awaiting
    ensures (200 <= status <= 299 && hasBody) <==> r.IsStreaming()
    ensures r.IsStreaming() ==> r == app.(phase := Reading(""))
    ensures !r.IsStreaming() ==> r == TransportError(app, "Request failed: " + DecimalString(status))
  {
    if !(200 <= status <= 299) || !hasBody then TransportError(app, "Request failed: " + DecimalString(status))
    else app.(phase := Reading(""))
  }

  /** One `reader.read()` value: feed it to the buffer and apply every complete line.
      Nothing is persisted here. */
  function Chunk(app: App, chunk: string, parse: string -> Parsed): (r: App)
    requires app.phase.Reading?
    ensures r.phase == Reading(Feed(app.phase.buffer, chunk).buffer)
    ensures r.settings == app.settings && r.store == app.store
    ensures r.bubble == app.bubble + Appended(Feed(app.phase.buffer, chunk).lines, parse, |app.history| > 0)
    ensures |r.history| == |app.history|
    ensures |app.history| > 0 ==> r.history[..|r.history| - 1] == app.history[..|app.history| - 1]
    ensures |app.history| > 0 ==> r.history[|r.history| - 1].role == app.history[|app.history| - 1].role
  {
    var fed := Feed(app.phase.buffer, chunk);
    ApplyLinesBubble(Progress(app.bubble, app.history), fed.lines, parse);
    var p := ApplyLines(Progress(app.bubble, app.history), fed.lines, parse);
    app.(phase := Reading(fed.buffer), bubble := p.bubble, history := p.history)
  }

  /** A chunk whose complete lines carry no content leaves the transcript as it was. */
  lemma ChunkWithoutContent(app: App, chunk: string, parse: string -> Parsed)
    requires app.phase.Reading?
    requires forall i :: 0 <= i < |Feed(app.phase.buffer, chunk).lines| ==>
      !Resyncs(Feed(app.phase.buffer, chunk).lines[i], parse)
    ensures Chunk(app, chunk, parse).history == app.history
  {
    ApplyLinesNoSync(Progress(app.bubble, app.history), Feed(app.phase.buffer, chunk).lines, parse);
  }

  /** When the chunk's complete lines are `a`, then a line `l` with content, then lines
      without content, the last message ends up holding the bubble as it was right after
      `l`'s content: `app.bubble`, the contributions of `a`, then that content. */
  lemma ChunkSyncsTranscript(app: App, chunk: string, parse: string -> Parsed,
                             a: seq<string>, l: string, b: seq<string>)
    requires app.phase.Reading? && |app.history| > 0
    requires Feed(app.phase.buffer, chunk).lines == a + [l] + b
    requires Resyncs(l, parse)
    requires forall i :: 0 <= i < |b| ==> !Resyncs(b[i], parse)
    ensures var r := Chunk(app, chunk, parse);
      r.history[|r.history| - 1].content == app.bubble + Appended(a, parse, true) + Truthy(parse(l).content)
  {
    var p := ApplyLines(Progress(app.bubble, app.history), a + [l] + b, parse);
    assert Chunk(app, chunk, parse).history == p.history;
    ApplyLinesLastSync(Progress(app.bubble, app.history), a, l, b, parse);
  }

  /** Splitting the body into chunks differently changes nothing: two chunks have the
      effect of their concatenation. */
  lemma ChunkConcat(app: App, c1: string, c2: string, parse: string -> Parsed)
    requires app.phase.Reading?
    ensures Chunk(Chunk(app, c1, parse), c2, parse) == Chunk(app, c1 + c2, parse)
  {
    var f1 := Feed(app.phase.buffer, c1);
    var f2 := Feed(f1.buffer, c2);
    FeedConcat(app.phase.buffer, c1, c2);
    ApplyLinesAppend(Progress(app.bubble, app.history), f1.lines, f2.lines, parse);
  }

  /** `done` from the reader: leave the loop; the leftover buffer is dropped unread. */
  function EndOfStream(app: App): (r: App)
    requires app.phase.Reading?
    ensures !r.IsStreaming()
    ensures r.history == app.history && r.bubble == app.bubble && r.settings == app.settings
    ensures r.store == SaveHistory(app.settings, app.history, app.store)
  {
    Finish(app)
  }

  /** With history saving on, a message just added loads back as the end of the transcript. */
  lemma AddMessagePersists(app: App, role: Role, content: string, current: seq<Message>)
    requires app.settings.saveHistory
    ensures LoadHistory(app.settings, current, AddMessage(app, role, content).store)
      == app.history + [Message(role, content)]
  {
  }

  /** `newChat`: the transcript is cleared and persisted, whether or not a cycle is in flight. */
  function NewChat(app: App): (r: App)
    ensures r.history == [] && r.phase == app.phase
    ensures r.settings == app.settings && r.bubble == app.bubble
    ensures r.store == SaveHistory(app.settings, [], app.store)
  {
    app.(history := [], store := SaveHistory(app.settings, [], app.store))
  }

  /** The save-settings handler: blank (after trimming) server URL or model fall back to the
      defaults, the settings are written, and switching history saving off removes the
      stored history. */
  function SaveSettingsForm(app: App, serverUrlField: string, modelField: string, checked: bool): (r: App)
    ensures r.settings.serverUrl == (if IsBlank(serverUrlField) then Defaults.serverUrl else Trim(serverUrlField))
    ensures r.settings.model == (if IsBlank(modelField) then Defaults.model else Trim(modelField))
    ensures r.settings.saveHistory == checked
    ensures LoadSettings(app.settings, r.store) == r.settings
    ensures !checked ==> r.store.history == Absent
    ensures checked ==> r.store.history == app.store.history
    ensures r.history == app.history && r.phase == app.phase && r.bubble == app.bubble
  {
    var url := Trim(serverUrlField);
    var model := Trim(modelField);
    var settings := Settings(if url == "" then Defaults.serverUrl else url,
                             if model == "" then Defaults.model else model,
                             checked);
    var saved := SaveSettings(settings, app.store);
    app.(settings := settings, store := if checked then saved else saved.(history := Absent))
  }

  /** While a cycle is in flight the open assistant message is the last one and its content
      is a prefix of the bubble (only markers can be ahead of it). */
  predicate Inv(app: App)
  {
    && (app.phase.Reading? ==> NoNewline(app.phase.buffer))
    && (app.IsStreaming() && |app.history| > 0 ==>
          && app.history[|app.history| - 1].role == Assistant
          && Synced(Progress(app.bubble, app.history)))
  }

  lemma SendKeepsInv(app: App, input: string)
    requires Inv(app)
    ensures Inv(Send(app, input).app)
  {
  }

  lemma {:induction false} ChunkKeepsInv(app: App, chunk: string, parse: string -> Parsed)
    requires app.phase.Reading? && Inv(app)
    ensures Inv(Chunk(app, chunk, parse))
  {
    var fed := Feed(app.phase.buffer, chunk);
    ApplyLinesKeepsPrefix(Progress(app.bubble, app.history), fed.lines, parse);
  }

  /** The response arriving keeps the invariant: reading starts with an empty buffer,
      or the cycle ends. */
  lemma ConnectedKeepsInv(app: App, status: nat, hasBody: bool)
    requires Inv(app) && app.phase == Awaiting
    ensures Inv(Connected(app, status, hasBody))
  {
  }

  /** Ending the cycle, by end of body or by a transport failure, releases the lock. */
  lemma FinishKeepsInv(app: App, message: string)
    requires Inv(app) && app.IsStreaming()
    ensures app.phase.Reading? ==> Inv(EndOfStream(app))
    ensures Inv(TransportError(app, message))
  {
  }

  /** "New chat" empties the transcript, which makes the invariant hold trivially. */
  lemma NewChatKeepsInv(app: App)
    requires Inv(app)
    ensures Inv(NewChat(app))
  {
  }

  /** Saving settings touches neither the transcript, the bubble nor the phase. */
  lemma SaveSettingsKeepsInv(app: App, urlField: string, modelField: string, checked: bool)
    requires Inv(app)
    ensures Inv(SaveSettingsForm(app, urlField, modelField, checked))
  {
    var r := SaveSettingsForm(app, urlField, modelField, checked);
    assert r.history == app.history && r.phase == app.phase && r.bubble == app.bubble;
  }

  /** How the server answered one request: the connection failed, or a status, whether a
      body came, the body's chunks, and whether reading it broke off (with the error message). */
  datatype Reply =
    | NoConnection(message: string)
    | Answered(status: nat, hasBody: bool, chunks: seq<string>, broken: Option<string>)

  /** The read loop over a sequence of chunks. */
  function FeedChunks(app: App, chunks: seq<string>, parse: string -> Parsed): (r: App)
    requires app.phase.Reading?
    ensures r.phase.Reading?
    ensures r.settings == app.settings && r.store == app.store
    ensures |r.history| == |app.history|
    ensures |app.history| > 0 ==> r.history[..|r.history| - 1] == app.history[..|app.history| - 1]
    decreases |chunks|
  {
    if |chunks| == 0 then app else FeedChunks(Chunk(app, chunks[0], parse), chunks[1..], parse)
  }

  /** The concatenation of all chunks. */
  function Concat(chunks: seq<string>): string
  {
    if |chunks| == 0 then "" else chunks[0] + Concat(chunks[1..])
  }

  /** However the body is cut into chunks, the read loop ends as if it had arrived in one piece. */
  lemma {:induction false} FeedChunksOnePiece(app: App, chunks: seq<string>, parse: string -> Parsed)
    requires app.phase.Reading? && NoNewline(app.phase.buffer)
    ensures FeedChunks(app, chunks, parse) == Chunk(app, Concat(chunks), parse)
    decreases |chunks|
  {
    if |chunks| == 0 {
      var fed := Feed(app.phase.buffer, "");
      assert app.phase.buffer + "" == app.phase.buffer;
      FeedUnique(app.phase.buffer, "", [], app.phase.buffer);
    } else {
      var next := Chunk(app, chunks[0], parse);
      FeedChunksOnePiece(next, chunks[1..], parse);
      ChunkConcat(app, chunks[0], Concat(chunks[1..]), parse);
    }
  }

  /** A whole `sendMessage` call, from the click to the end of the `finally` block, with the
      server's behaviour given as `reply` and no other event in between. */
  function RunCycle(app: App, input: string, reply: Reply, parse: string -> Parsed): (r: App)
    ensures IsBlank(input) || app.IsStreaming() ==> r == app
    ensures !app.IsStreaming() ==> !r.IsStreaming()
    ensures r.settings == app.settings && r.store.settings == app.store.settings
    ensures !IsBlank(input) && !app.IsStreaming() ==> |r.history| == |app.history| + 2
  {
    var sent := Send(app, input);
    if sent.request.None? then app
    else match reply
      case NoConnection(message) => TransportError(sent.app, message)
      case Answered(status, hasBody, chunks, broken) =>
        var connected := Connected(sent.app, status, hasBody);
        if !connected.IsStreaming() then connected
        else
          var read := FeedChunks(connected, chunks, parse);
          match broken
          case Some(message) => TransportError(read, message)
          case None => EndOfStream(read)
  }

  /** The shape a state has while the cycle for `input`, started from `app`, is in progress:
      the transcript grew by the user message and an assistant message whose content is a
      prefix of the bubble, and storage differs at most in the persisted transcript. */
  predicate InCycle(app: App, input: string, x: App)
  {
    && x.settings == app.settings
    && |x.history| == |app.history| + 2
    && x.history[..|app.history| + 1] == app.history + [Message(User, Trim(input))]
    && x.history[|x.history| - 1].role == Assistant
    && x.history[|x.history| - 1].content <= x.bubble
    && x.store.settings == app.store.settings
    && (!app.settings.saveHistory ==> x.store.history == app.store.history)
  }

  lemma {:induction false} ReadKeepsCycle(app: App, input: string, x: App, chunks: seq<string>, parse: string -> Parsed)
    requires x.phase.Reading? && Inv(x) && InCycle(app, input, x)
    ensures var read := FeedChunks(x, chunks, parse); Inv(read) && InCycle(app, input, read)
  {
    var read := FeedChunks(x, chunks, parse);
    FeedChunksOnePiece(x, chunks, parse);
    ChunkKeepsInv(x, Concat(chunks), parse);
    var n := |app.history| + 1;
    assert read.history[..|read.history| - 1] == x.history[..|x.history| - 1];
    assert read.history[..n] == read.history[..|read.history| - 1][..n];
    assert x.history[..n] == x.history[..|x.history| - 1][..n];
  }

  /** Every accepted cycle ends with the lock released and the transcript persisted (when
      history saving is on) on all paths; the transcript has grown by the user message and an
      assistant message whose content is a prefix of the bubble. */
  lemma {:induction false} CycleOutcome(app: App, input: string, reply: Reply, parse: string -> Parsed)
    requires !IsBlank(input) && !app.IsStreaming()
    ensures var r := RunCycle(app, input, reply, parse);
      && !r.IsStreaming()
      && r.store == SaveHistory(app.settings, r.history, app.store)
      && InCycle(app, input, r)
  {
    var sent := Send(app, input);
    SentInCycle(app, input);
    match reply
    case NoConnection(message) =>
      FailInCycle(app, input, sent.app, message);
    case Answered(status, hasBody, chunks, broken) =>
      var connected := Connected(sent.app, status, hasBody);
      if connected.IsStreaming() {
        ReadKeepsCycle(app, input, connected, chunks, parse);
        var read := FeedChunks(connected, chunks, parse);
        match broken
        case Some(message) => FailInCycle(app, input, read, message);
        case None => FinishInCycle(app, input, read);
      } else {
        FailInCycle(app, input, sent.app, "Request failed: " + DecimalString(status));
      }
  }

  /** When the connection fails, an accepted cycle ends showing the `[network]` marker alone. */
  lemma OfflineCycleBubble(app: App, input: string, message: string, parse: string -> Parsed)
    requires !IsBlank(input) && !app.IsStreaming()
    ensures RunCycle(app, input, NoConnection(message), parse).bubble == "\n[network] " + message
  {
    assert "" + "\n[network] " == "\n[network] ";
  }

  /** A response outside 200–299, or without a body, ends an accepted cycle showing only
      the `[network]` marker with the status. */
  lemma RejectedResponseBubble(app: App, input: string, status: nat, hasBody: bool, chunks: seq<string>,
                               broken: Option<string>, parse: string -> Parsed)
    requires !IsBlank(input) && !app.IsStreaming()
    requires !(200 <= status <= 299 && hasBody)
    ensures RunCycle(app, input, Answered(status, hasBody, chunks, broken), parse).bubble
      == "\n[network] " + ("Request failed: " + DecimalString(status))
  {
    var sent := Send(app, input).app;
    var failed := TransportError(sent, "Request failed: " + DecimalString(status));
    assert RunCycle(app, input, Answered(status, hasBody, chunks, broken), parse) == failed;
    assert sent.bubble == "" && "" + "\n[network] " == "\n[network] ";
  }

  /** An accepted response ends the cycle showing the contributions of every complete line
      of the whole body, as if it had arrived in one piece, followed by the `[network]`
      marker if reading broke off. */
  lemma {:induction false} CycleBubble(app: App, input: string, status: nat, hasBody: bool,
                                       chunks: seq<string>, broken: Option<string>, parse: string -> Parsed)
    requires !IsBlank(input) && !app.IsStreaming()
    requires 200 <= status <= 299 && hasBody
    ensures RunCycle(app, input, Answered(status, hasBody, chunks, broken), parse).bubble
      == Appended(Feed("", Concat(chunks)).lines, parse, true)
         + (if broken.Some? then "\n[network] " + broken.value else "")
  {
    var connected := Connected(Send(app, input).app, status, hasBody);
    var read := FeedChunks(connected, chunks, parse);
    ReadBubble(connected, chunks, parse);
    var body := Appended(Feed("", Concat(chunks)).lines, parse, true);
    match broken
    case Some(m) =>
      assert RunCycle(app, input, Answered(status, hasBody, chunks, broken), parse) == TransportError(read, m);
      ConcatAssoc(body, "\n[network] ", m);
    case None =>
      assert RunCycle(app, input, Answered(status, hasBody, chunks, broken), parse) == EndOfStream(read);
      assert body + "" == body;
  }

  /** Reading a whole body into a fresh bubble, with an open assistant message, shows the
      contributions of the body's complete lines, however it is cut into chunks. */
  lemma ReadBubble(x: App, chunks: seq<string>, parse: string -> Parsed)
    requires x.phase == Reading("") && x.bubble == "" && |x.history| > 0
    ensures FeedChunks(x, chunks, parse).bubble == Appended(Feed("", Concat(chunks)).lines, parse, true)
  {
    FeedChunksOnePiece(x, chunks, parse);
    var body := Appended(Feed("", Concat(chunks)).lines, parse, true);
    assert "" + body == body;
  }

  /** Leaving the cycle through the `finally` block keeps its shape and persists it. */
  lemma FinishInCycle(app: App, input: string, x: App)
    requires InCycle(app, input, x)
    ensures var r := Finish(x);
      && !r.IsStreaming() && InCycle(app, input, r)
      && r.store == SaveHistory(app.settings, r.history, app.store)
  {
  }

  /** Leaving the cycle through the `catch` block: the marker only lengthens the bubble. */
  lemma FailInCycle(app: App, input: string, x: App, message: string)
    requires InCycle(app, input, x) && x.IsStreaming()
    ensures var r := TransportError(x, message);
      && !r.IsStreaming() && InCycle(app, input, r)
      && r.store == SaveHistory(app.settings, r.history, app.store)
  {
    FinishInCycle(app, input, x.(bubble := x.bubble + "\n[network] " + message));
  }

  /** An accepted send starts the cycle in the shape `InCycle` describes. */
  lemma SentInCycle(app: App, input: string)
    requires !IsBlank(input) && !app.IsStreaming()
    ensures InCycle(app, input, Send(app, input).app) && Inv(Send(app, input).app)
    ensures Send(app, input).app.phase == Awaiting
  {
    var h := Send(app, input).app.history;
    assert h[..|app.history| + 1] == app.history + [Message(User, Trim(input))];
  }

  /** A rejected send is not a cycle: the state is untouched. */
  lemma RejectedCycleChangesNothing(app: App, input: string, reply: Reply, parse: string -> Parsed)
    requires IsBlank(input) || app.IsStreaming()
    ensures RunCycle(app, input, reply, parse) == app
  {
  }

  /** After "new chat" in the middle of a cycle, the rest of the stream can no longer write
      the transcript: it stays empty while the detached bubble keeps growing, by the
      contributions the lines make to an empty transcript. The rest of the body is taken
      in one piece; `FeedChunksOnePiece` carries this over to any split into chunks. */
  lemma NewChatMidStream(app: App, rest: string, parse: string -> Parsed)
    requires app.phase.Reading?
    ensures var r := Chunk(NewChat(app), rest, parse);
      && r.history == []
      && r.bubble == app.bubble + Appended(Feed(app.phase.buffer, rest).lines, parse, false)
  {
    ApplyLinesBubble(Progress(app.bubble, []), Feed(app.phase.buffer, rest).lines, parse);
  }
}

=== FILE: text.dfy ===
/**
 Pure string helpers the client relies on, written out as the JavaScript
 built-ins behave: `String.prototype.trim`, `split('\n')`, `replace(/\/$/, '')`
 and the default ordering used by `Array.prototype.sort`. `Join` is not used by the
 client; it is the inverse against which `Split` is specified.
 */
module Text {

  /** JavaScript's WhiteSpace and LineTerminator code points, which `trim` strips:
      U+0009 to U+000D, the space, U+00A0, U+1680, U+2000 to U+200A, U+2028, U+2029,
      U+202F, U+205F, U+3000 and U+FEFF. */
  predicate IsSpace(c: char) {
    || '\t' <= c <= '\r'
    || c == ' ' || c == '\U{00A0}' || c == '\U{1680}'
    || '\U{2000}' <= c <= '\U{200A}'
    || c == '\U{2028}' || c == '\U{2029}' || c == '\U{202F}' || c == '\U{205F}'
    || c == '\U{3000}' || c == '\U{FEFF}'
  }

  /** Every character of `s` is whitespace (the empty string included). */
  predicate IsBlank(s: string) {
    forall i :: 0 <= i < |s| ==> IsSpace(s[i])
  }

  /** The number of whitespace characters `s` starts with. */
  function LeadingSpaces(s: string): (n: nat)
    ensures n <= |s|
    ensures forall k :: 0 <= k < n ==> IsSpace(s[k])
    ensures n < |s| ==> !IsSpace(s[n])
  {
    if |s| > 0 && IsSpace(s[0]) then 1 + LeadingSpaces(s[1..]) else 0
  }

  /** The number of whitespace characters `s` ends with. */
  function TrailingSpaces(s: string): (n: nat)
    ensures n <= |s|
    ensures forall k :: |s| - n <= k < |s| ==> IsSpace(s[k])
    ensures n < |s| ==> !IsSpace(s[|s| - 1 - n])
  {
    if |s| > 0 && IsSpace(s[|s| - 1]) then 1 + TrailingSpaces(s[..|s| - 1]) else 0
  }

  /** `String.prototype.trim`: the infix between the leading and the trailing whitespace. It is
      empty exactly when the whole string is blank, and otherwise neither starts nor ends
      with whitespace. */
  function Trim(s: string): (r: string)
    ensures r == "" <==> IsBlank(s)
    ensures r != "" ==> r == s[LeadingSpaces(s)..|s| - TrailingSpaces(s)]
    ensures |r| > 0 ==> !IsSpace(r[0]) && !IsSpace(r[|r| - 1])
  {
    var i := LeadingSpaces(s);
    if i == |s| then ""
    else
      var j := |s| - TrailingSpaces(s);
      assert i < j;
      s[i..j]
  }

  /** Concatenation is associative (stated once, so proofs need not rediscover it). */
  lemma ConcatAssoc(a: string, b: string, c: string)
    ensures (a + b) + c == a + (b + c)
  {
  }

  predicate NoNewline(s: string) {
    '\n' !in s
  }

  /** The pieces glued with newlines, as `parts.join('\n')` would; the inverse of `Split`. */
  function Join(parts: seq<string>): string
  {
    if |parts| == 0 then ""
    else if |parts| == 1 then parts[0]
    else parts[0] + "\n" + Join(parts[1..])
  }

  /** `s.split('\n')`: the pieces between newlines, always at least one. Its partner
      is `Join`: the pieces contain no newline and join back to `s`. */
  function Split(s: string): (r: seq<string>)
    ensures |r| >= 1
    ensures forall i :: 0 <= i < |r| ==> NoNewline(r[i])
    ensures Join(r) == s
  {
    if |s| == 0 then [""]
    else
      var rest := Split(s[1..]);
      if s[0] == '\n' then
        assert Join([""] + rest) == "" + "\n" + Join(rest);
        [""] + rest
      else
        var r := [[s[0]] + rest[0]] + rest[1..];
        assert r[1..] == rest[1..];
        assert [s[0]] + s[1..] == s;
        r
  }

  /** Joining a concatenation puts one newline between the two joins. */
  lemma {:induction false} JoinAppend(xs: seq<string>, ys: seq<string>)
    requires |xs| > 0 && |ys| > 0
    ensures Join(xs + ys) == Join(xs) + "\n" + Join(ys)
  {
    if |xs| == 1 {
      assert (xs + ys)[1..] == ys;
    } else {
      assert (xs + ys)[1..] == xs[1..] + ys;
      JoinAppend(xs[1..], ys);
    }
  }

  /** Splitting `p + s` where `p` has no newline glues `p` onto the first piece of `s`. */
  lemma {:induction false} SplitGlue(p: string, s: string)
    requires NoNewline(p)
    ensures Split(p + s) == [p + Split(s)[0]] + Split(s)[1..]
  {
    if |p| > 0 {
      assert (p + s)[1..] == p[1..] + s;
      SplitGlue(p[1..], s);
      assert [p[0]] + (p[1..] + Split(s)[0]) == p + Split(s)[0];
    } else {
      assert p + s == s;
      assert "" + Split(s)[0] == Split(s)[0];
      assert [Split(s)[0]] + Split(s)[1..] == Split(s);
    }
  }

  /** `Split` inverts `Join` on newline-free pieces: the pieces of a string are
      determined by it. */
  lemma {:induction false} SplitJoin(parts: seq<string>)
    requires |parts| >= 1
    requires forall i :: 0 <= i < |parts| ==> NoNewline(parts[i])
    ensures Split(Join(parts)) == parts
  {
    if |parts| == 1 {
      SplitGlue(parts[0], "");
      assert parts[0] + "" == parts[0];
    } else {
      var rest := Join(parts[1..]);
      SplitJoin(parts[1..]);
      assert Join(parts) == parts[0] + ("\n" + rest);
      SplitGlue(parts[0], "\n" + rest);
      assert ("\n" + rest)[1..] == rest;
      assert parts[0] + "" == parts[0];
      assert [parts[0]] + parts[1..] == parts;
    }
  }

  /** `s.replace(/\/$/, '')`: at most one trailing slash removed. */
  function StripTrailingSlash(s: string): (r: string)
    ensures r == s || r + "/" == s
    ensures |r| == |s| <==> (|s| == 0 || s[|s| - 1] != '/')
  {
    if |s| > 0 && s[|s| - 1] == '/' then s[..|s| - 1] else s
  }

  /** Code-point lexicographic order, the order `Array.prototype.sort` uses for strings
      when no comparator is given. */
  predicate LexLe(a: string, b: string)
  {
    if |a| == 0 then true
    else if |b| == 0 then false
    else if a[0] != b[0] then a[0] < b[0]
    else LexLe(a[1..], b[1..])
  }

  lemma {:induction false} LexLeTotal(a: string, b: string)
    ensures LexLe(a, b) || LexLe(b, a)
  {
    if |a| > 0 && |b| > 0 && a[0] == b[0] {
      LexLeTotal(a[1..], b[1..]);
    }
  }

  lemma {:induction false} LexLeAntisymmetric(a: string, b: string)
    requires LexLe(a, b) && LexLe(b, a)
    ensures a == b
  {
    if |a| > 0 && |b| > 0 {
      LexLeAntisymmetric(a[1..], b[1..]);
      assert a == [a[0]] + a[1..] && b == [b[0]] + b[1..];
    }
  }

  lemma {:induction false} LexLeTransitive(a: string, b: string, c: string)
    requires LexLe(a, b) && LexLe(b, c)
    ensures LexLe(a, c)
  {
    if |a| > 0 && |b| > 0 && |c| > 0 && a[0] == b[0] && b[0] == c[0] {
      LexLeTransitive(a[1..], b[1..], c[1..]);
    }
  }
}

=== FILE: transcript.dfy ===
/** The conversation transcript: an ordered sequence of `{role, content}` messages. */
module Transcript {

  datatype Role = User | Assistant

  datatype Message = Message(role: Role, content: string)

  /** The transcript with its last message's content replaced; the source writes
      `history[history.length - 1].content = …` without looking at the role. */
  function SetLastContent(history: seq<Message>, content: string): (r: seq<Message>)
    requires |history| > 0
    ensures |r| == |history|
    ensures r[..|r| - 1] == history[..|history| - 1]
    ensures r[|r| - 1] == Message(history[|history| - 1].role, content)
  {
    history[..|history| - 1] + [history[|history| - 1].(content := content)]
  }
}

=== FILE: wrappers.dfy ===
/** The Option datatype used for fields and lookups that may be missing. */
module Wrappers {

  datatype Option<+T> = None | Some(value: T) {

    /** Returns the value in Some, or the default when None. */
    function GetOr(default: T): T {
      match this
      case Some(v) => v
      case None => default
    }
  }
}
